=== FILE: README.md ===
# Entitlement engine of the AI song server, modelled in Dafny

This project models the membership ("VIP") engine of `FWQCX/vip.py` and the credential and
device-binding logic of `FWQCX/auth.py`. Every request handler becomes a pure transition
over an immutable `Store.State`:

- a user map, from email to salt, password hash, verification key, hardware id and last login;
- a card-key map, from code to level, grants, status and activation record;
- a membership map, with at most one row per user;
- the usage log;
- the two SERIAL id counters.

Each operation returns an `Outcome`: a typed `Result` (the JSON `success`/`message` pair) and
the next state. Inputs that Python draws or reads from the system are parameters:

- `now`, in whole seconds (a day is 86400 seconds);
- the random characters of card keys and verification keys, and the salt;
- the password hash, a function `hash(password, salt)` standing for salted SHA-256.

Modules follow the components:

- `Benefits`: the four-level table.
- `CardKeys`: key format and batch issuance (`generate_card_key`).
- `Activation`: `activate_card`.
- `Usage`: `record_usage`.
- `Membership`: `check_membership`.
- `Auth`: `register` and `login`.
- `Lifecycle`: properties across operations.
- `Store` and `Wrappers`: the state and the result types.

Behaviour of the code as written, which the model keeps and exhibits by lemma:

- Renewal sets the level to `max(card level, existing_member[0])`. That element is the
  membership row's id, not its level, so a renewal can lower the level
  (`Lifecycle.RenewalLevelUsesRowId`).
- Renewal replaces each limit by *remaining + grant* but keeps the used counters. A renewed
  membership can therefore have used above limit (`Lifecycle.RenewalCanLeaveUsedAboveLimit`).
  No global `used <= limit` invariant is claimed. `Usage.RecordKeepsWithinLimits` only shows
  that metering never breaks it.
- The "lapsed" branch of the renewal expiry is never taken. The lookup already keeps only rows
  with `expire_time > now` for the same `now` (`Activation.RenewalArithmetic`).
- A key status outside the four known ones passes the status check and activates
  (`Lifecycle.UnknownStatusActivates`).
- The activation response reports the card's level, not the level stored
  (`Lifecycle.ResponseReportsCardLevel`).
- `check_membership` rounds remaining days up and `login` rounds them down
  (`Lifecycle.DayRoundingDiffers`).

## Model

| member | source | states |
|---|---|---|
| Benefits.Lookup | FWQCX/vip.py:44-77 | the benefit table is defined exactly for levels 1 to 4, each row granting positive days, lyrics and music |
| Benefits.LevelName | FWQCX/vip.py:398 | the level name is the table's name for a known level and the generic "会员" otherwise |
| Store.StatusOf | FWQCX/vip.py:279-296 | reading a status text gives one of the four known statuses exactly when the text is one of '未激活', '已激活', '已使用', '已冻结', and otherwise an Unknown that keeps the text; the result is always well formed and writes back as the same text (`Store.StatusRoundTrip`: every well-formed status reads back as itself) |
| Store.Remaining | FWQCX/vip.py:523-524 | a remaining count is never negative and equals limit minus used whenever that is positive |
| CardKeys.FormatCode | FWQCX/vip.py:139-150 | a code is 23 characters long; what it means is carried by `CardKeys.FormatCodeIsKeyCode` (well formed), `CardKeys.GroupsOfFormat` (lossless) and `CardKeys.FormatCodeInjective` (distinct draws, distinct codes) |
| CardKeys.FormatCodeIsKeyCode | FWQCX/vip.py:138-150 | every generated code is "VIP-" then four hyphen-separated groups of four characters from A-Z0-9, 23 characters in all |
| CardKeys.GroupsOfFormat | FWQCX/vip.py:139-150 | stripping prefix and hyphens from a generated code gives back the sixteen drawn characters |
| CardKeys.FormatOfGroups | FWQCX/vip.py:139-150 | every well-formed code is the code generated from its own sixteen characters |
| CardKeys.FormatCodeInjective | FWQCX/vip.py:139-150 | different draws never produce the same code |
| CardKeys.NewKey | FWQCX/vip.py:161-185 | a new row is stored with status '未激活', never activated and without expiry; made from the benefits of a known level, it satisfies the store's card invariant (positive days, non-negative counts, well-formed status) |
| CardKeys.Fill | FWQCX/vip.py:133-194 | the redraw-until-free loop succeeds exactly when the reference walk `Picked` finds the requested number of free codes, and then returns exactly those codes in order, pairwise distinct, well formed and absent from the store, each inserted with the given row and nothing else changed |
| CardKeys.Issue | FWQCX/vip.py:104-206 | an unknown level is refused with the store unchanged, and with a known level the only refusal is running out of draws; the batch succeeds exactly when the reference walk `Picked` over the draws finds max(quantity, 0) free codes, and then its codes are exactly those, in order: pairwise distinct, well formed and absent from the store, each stored as an unactivated row carrying the level's days, lyrics and music, with nothing else changed and the store invariants kept |
| CardKeys.NextFree | FWQCX/vip.py:137-156 | the redraw loop stops at the first draw whose code is not stored; every draw it skips has a stored code |
| CardKeys.Step | FWQCX/vip.py:133-184 | one turn of the batch loop either finds that the draws run out, in which case the whole batch fails, or stores the level's row under exactly one new, free, well-formed code, and the codes issued so far followed by the rest of the batch are still the reference batch |
| CardKeys.PickedFreshDraws | FWQCX/vip.py:133-156 | when the draws are pairwise distinct, none of their codes is stored, and there are at least as many as requested, the batch is exactly the codes of the first max(quantity, 0) draws, in order |
| Activation.StatusRefusal | FWQCX/vip.py:279-295 | only the activated, used and frozen statuses refuse a key; unactivated and unrecognised statuses pass |
| Activation.Refusal | FWQCX/vip.py:239-305 | refusals come in the source's order: empty code or email, unknown key, refusing status (with the activator for an activated key), unregistered email |
| Activation.NewMember | FWQCX/vip.py:362-374 | a new membership expires the card's days after now, has the card's quotas as limits and nothing used |
| Activation.Renew | FWQCX/vip.py:319-360 | a renewed membership gets the card's days added to the later of its old expiry and now, limits equal to the old remainders plus the grants, its used counters are unchanged, and its level is the larger of the card level and the row id |
| Activation.Activate | FWQCX/vip.py:239-404 | a refused activation changes nothing; an accepted one happens exactly when no refusal applies, renews a live membership or creates one, marks the key activated by the email with the membership's new expiry, and changes no other key, user, membership or log entry |
| Activation.RenewalArithmetic | FWQCX/vip.py:309-347 | renewing a live membership moves its expiry from the old expiry (not from now) by the card's days, so it ends at least the old expiry and after now, and sets each limit to max(0, limit - used) + grant with used unchanged |
| Activation.NewMembership | FWQCX/vip.py:362-374 | without a live membership, activation creates one expiring now + days with the card's limits, used 0/0, the card's level and a fresh row id |
| Activation.ExpiryNeverDecreases | FWQCX/vip.py:329-364 | after any successful activation the user's expiry is after now and not before the expiry of the row they had, live or lapsed |
| Activation.NoReplay | FWQCX/vip.py:279-285 | once a key is activated, every later activation of it, by anyone, is refused with the first activator's email and changes nothing |
| Activation.ActivatePreservesValid | FWQCX/vip.py:318-384 | activation keeps the store invariants: memberships belong to users, ids are positive and below their counters, counts and grants stay in range, card statuses stay well formed |
| Usage.Charge | FWQCX/vip.py:646-679 | charging a kind adds one to that kind's used counter and leaves the other counter, both limits, the expiry and the level unchanged |
| Usage.RecordUsage | FWQCX/vip.py:586-702 | an empty email, a type other than lyrics or music, an unknown user, no live membership or an exhausted quota is refused with nothing changed, in that order, the last with the quota-exhausted error carrying the limit; otherwise only the chosen counter grows by one, one log entry is appended, and the response is the new remainder, at least 0 |
| Usage.RecordKeepsWithinLimits | FWQCX/vip.py:638-682 | if a user's used counters were within their limits before a metering call, they still are after |
| Usage.QuotaAllowsExactly | FWQCX/vip.py:638-689 | with u of L used, exactly L - u further calls of that kind succeed, each appending a log entry, and the next one is refused as exhausted |
| Usage.RecordPreservesValid | FWQCX/vip.py:646-689 | metering keeps the store invariants |
| Membership.DaysRoundedUp | FWQCX/vip.py:509-520 | remaining days are the time left rounded up to whole days, and at least one |
| Membership.CheckMembership | FWQCX/vip.py:422-556 | an empty email and an unknown user are refused, a user without a live membership is told so, and both leave the store unchanged; a registered user with a live membership is always reported as a member; a member gets the stored limits and used counts, remaining = max(0, limit - used) per kind and the days left rounded up, and only the membership's last-check time changes |
| Membership.CheckPreservesValid | FWQCX/vip.py:532-537 | stamping the last-check time keeps the store invariants |
| Auth.ValidEmail | FWQCX/auth.py:136 | an accepted email is at least eight characters, starts with a digit and is not all digits, the character after its digits being '@'; the full shape is `Auth.ValidEmailIsDigitsThenSuffix` |
| Auth.ValidEmailIsDigitsThenSuffix | FWQCX/auth.py:136 | an email is accepted exactly when it is one or more digits followed by "@qq.com" |
| Auth.DigitCount | FWQCX/auth.py:161 | the digit count never exceeds the length; it is the number of digit positions (`Auth.DigitCountIsDigitPositions`) and adds up over concatenation (`Auth.DigitCountAppend`) |
| Auth.DigitCountAppend | FWQCX/auth.py:161 | the password digit count of a concatenation is the sum of the counts |
| Auth.DigitCountIsDigitPositions | FWQCX/auth.py:161 | the password digit count is the number of positions holding a digit |
| Auth.PasswordRefusal | FWQCX/auth.py:144-167 | a password is accepted exactly when it has at least 8 characters, a letter and 5 digits; the rules are checked in that order and the first failure is reported |
| Auth.VerificationKey | FWQCX/auth.py:197-204 | the verification key has 6 characters from A-Z0-9 and at least one letter and one digit, keeps the draw's first five characters, and equals the draw when the draw already had both |
| Auth.Register | FWQCX/auth.py:135-248 | a bad email, then a failed password rule, then an existing email is refused with no user added; otherwise exactly one user is added under the next SERIAL id with hash(password, salt), the key shaped from the draw and no bound device, and the response carries that key, the email, the time and no user id (the driver's `lastrowid` is an OID, absent for this table) |
| Auth.RegisterPreservesValid | FWQCX/auth.py:208-223 | registration keeps the store invariants |
| Auth.DeviceCheck | FWQCX/auth.py:350-392 | with a bound device and a missing or different supplied id, no key gives the new-device refusal and a wrong key the wrong-key refusal; a key-less login passes only if no device is bound or the same one is supplied; a passing check binds the supplied id if there is one and keeps the stored one otherwise |
| Auth.DaysRoundedDown | FWQCX/auth.py:453-458 | the login view's remaining days are whole days left rounded down, but at least one |
| Auth.LoginView | FWQCX/auth.py:446-470 | the login member view reports the stored level, expiry, limits and used counts, remaining = max(0, limit - used) per kind, and the days left rounded down but at least one |
| Auth.Login | FWQCX/auth.py:296-477 | missing credentials, an unknown user or a wrong password fail with no change, and the last two with the same error; a device refusal changes nothing and reports `DeviceCheck`'s error (new device without key, or wrong key); an accepted login changes only the user's hardware id (to the supplied one if non-empty) and last login (to now), and reports the user's id and email, and a membership exactly when one is live, that membership's `LoginView` |
| Auth.LoginPreservesValid | FWQCX/auth.py:379-397 | login keeps the store invariants |
| Lifecycle.DeviceBindingWalkthrough | FWQCX/auth.py:350-397 | after registering, a first login binds its device, another device without the key is refused with nothing changed, the key rebinds to the new device, and that device then needs no key |
| Lifecycle.FirstActivationScenario | FWQCX/vip.py:362-374 | a tier-2 card on a user without membership gives expiry now + 30 days, limits 200/50 and used 0/0 |
| Lifecycle.RenewalScenario | FWQCX/vip.py:319-360 | a live 200/50 membership with 150/10 used, renewed by a tier-2 card, gets expiry old + 30 days and limits 250/90 with used still 150/10 |
| Lifecycle.RenewalLevelUsesRowId | FWQCX/vip.py:349-350 | because the row id stands in for the old level, a level-4 member with row id 1 drops to level 2 on renewal with a level-2 card |
| Lifecycle.ResponseReportsCardLevel | FWQCX/vip.py:392-404 | the activation response carries the card's level even when the stored level differs |
| Lifecycle.RenewalCanLeaveUsedAboveLimit | FWQCX/vip.py:339-360 | a renewal can leave a used counter above its new limit (150 used against a limit of 100) |
| Lifecycle.UnknownStatusActivates | FWQCX/vip.py:279-296 | a key whose status text is none of the four known texts is activated like an unactivated one |
| Lifecycle.DayRoundingDiffers | FWQCX/auth.py:453-458 | the login view's days are never more than the membership view's and at most one fewer, and the two agree exactly when under a day or a whole number of days is left |
| Lifecycle.ViewPredictsMetering | FWQCX/vip.py:619-667 | for a registered user, the membership view shows a positive remainder of a kind exactly when metering that kind at the same moment succeeds, and "not a member" exactly matches the metering refusal |
| Lifecycle.ViewsAgreeOnCounts | FWQCX/auth.py:449-451 | the login view and the membership view report the same remaining counts |

## Left out

- HTTP routing, JSON parsing and `.strip()` of the request fields. Operations take the
  values after the handler's defaults and stripping. Email, password, card key, verification
  key and hardware id default to `''` and are stripped, so for them the empty string stands
  for a missing field. The usage `type` defaults to `'lyrics'` and is not stripped. An
  explicit `""` or `" lyrics"` is refused as a bad type. `vip_level` and `quantity` default
  to 2 and 1. Non-integer JSON values for them are not modelled. Because fields are taken
  after stripping, the email check does not model Python's `$` accepting a trailing newline.
  An empty or missing JSON body is refused before any default applies in `generate_card_key`,
  `register` and `login` (FWQCX/vip.py:98-102, FWQCX/auth.py:117-121 and 274-278). The other
  three handlers have no such check: `{}` takes the defaults, and a `null` body makes
  `data.get` raise outside any `try`. The model starts after the body has been read.
- The database connection, transactions and concurrency. Each operation is one sequential
  transition. Nothing is claimed about interleaved callers. The race between the existence
  check and the insert of a card key is not modelled.
- SHA-256, `os.urandom` and `random.choices` are foreign calls. The hash is a function
  parameter, and the random draws are parameters whose shape (characters from A-Z0-9, the
  right length) is a precondition.
- Time is whole seconds. `datetime` microseconds, `isoformat`/`strftime` output and
  `created_at` strings are not modelled.
- `time.sleep` delays, `print` tracing and the best-effort `system_logs` inserts.
- `CardKeys.Issue`: the source redraws forever while codes collide. The model consumes a
  finite list of draws and reports `DrawsExhausted`, with the store unchanged, when the list
  runs out.
- A user has at most one membership row. The source inserts a new row when the old one has
  lapsed. The model replaces the lapsed row instead, which every query already ignores,
  since they all filter `expire_time > now`. This assumes time does not run backwards.
- The `activated_hwid` column and the request's `hardware_id` in activation are never
  written by the code, so they are not modelled.
- The dead re-checks are not modelled: `expire_time < current_time` in `check_membership`,
  and `remaining_seconds <= 0` in both views. Each follows a query that already requires
  `expire_time > now`.
- The `price` and `description` fields of the benefit table are not used by any logic.
- `Membership.CheckMembership` and `Usage.RecordUsage` follow the evident intent of their
  membership queries, not the SQL as written. The SELECTs in `check_membership`
  (FWQCX/vip.py:453-466) and `record_usage` (FWQCX/vip.py:606-615) carry `#` comments inside
  the SQL text. PostgreSQL does not read `#` as a comment; it parses it as an operator there
  and rejects the statement. As written, both handlers would therefore always answer through
  their `except` branches (FWQCX/vip.py:558-565 and 704-709) with a database error.
- `Auth.Register`: the id the new row receives is modelled as the SERIAL counter, but the
  response does not promise it. The response's `user_id` is `cursor.lastrowid`
  (FWQCX/auth.py:220), which the PostgreSQL driver sets to an OID, and the table has none.
- The DDL in `FWQCX/database.py` has no `salt` column for users, but `register` and `login`
  read and write one. The model follows those two functions.
- Column widths: limits and used counters are 32-bit `INT` columns in `FWQCX/database.py`.
  An update past 2^31 - 1 would fail in the database. The model's integers are unbounded,
  so that failure is not modelled. Likewise `email` and `hardware_id` are `VARCHAR(100)`
  (FWQCX/database.py:45 and 47). A longer hardware id makes the source's login fail in the
  database, while the model binds it; a longer email fails registration there.
- Python's Unicode `isalpha`/`isdigit`/`\d`: only ASCII letters and digits are modelled.

=== FILE: activation.dfy ===
/** Card-key activation (vip.py, activate_card): validate the request, then create a
    membership or merge the card into the live one, and mark the key activated. */
module Activation {
  import opened Wrappers
  import opened Store
  import Benefits

  datatype ActivationError =
    | MissingInput
    | KeyNotFound
    | AlreadyActivated(activatedBy: Option<string>)
    | AlreadyConsumed
    | KeyFrozen
    | UserNotRegistered

  /** The success response. `level` is the card's level, whatever level the membership ends at. */
  datatype Receipt = Receipt(
    email: string,
    level: int,
    levelName: string,
    expireTime: int,
    lyricsAdded: int,
    musicAdded: int,
    daysAdded: int)

  /** The status check: only the three named refusal statuses stop activation, so an
      unactivated key and a key with any unrecognised status both pass. */
  function StatusRefusal(k: CardKey): (e: Option<ActivationError>)
    ensures e.None? <==> (k.status.Unactivated? || k.status.Unknown?)
  {
    match k.status
    case Activated => Some(AlreadyActivated(k.activatedBy))
    case Consumed => Some(AlreadyConsumed)
    case Frozen => Some(KeyFrozen)
    case _ => None
  }

  /** The row inserted for a user without a live membership. */
  function NewMember(id: nat, k: CardKey, now: int): (m: Member)
    ensures m.expireTime == now + k.days * Day
    ensures m.lyricsLimit == k.lyrics && m.musicLimit == k.music
    ensures m.lyricsUsed == 0 && m.musicUsed == 0
    ensures m.level == k.level && m.id == id
  {
    Member(id, k.level, k.lyrics, 0, k.music, 0, now + k.days * Day, now, None)
  }

  /** The update of a live membership by a card, as written: the card's days are added to the
      later of the old expiry and now, each limit becomes what was left plus the grant while the used counters stay,
      and the level is the larger of the card's level and the row's id. */
  function Renew(m: Member, k: CardKey, now: int): (m': Member)
    ensures m'.expireTime == Max(m.expireTime, now) + k.days * Day
    ensures m'.lyricsLimit == Remaining(m.lyricsLimit, m.lyricsUsed) + k.lyrics
    ensures m'.musicLimit == Remaining(m.musicLimit, m.musicUsed) + k.music
    ensures m'.lyricsUsed == m.lyricsUsed && m'.musicUsed == m.musicUsed
    ensures m'.level == Max(k.level, m.id)
    ensures m'.id == m.id && m'.activateTime == m.activateTime && m'.lastCheck == m.lastCheck
  {
    var expire := if m.expireTime > now then m.expireTime + k.days * Day
                  else now + k.days * Day;
    m.(level := Max(k.level, m.id),
       lyricsLimit := Remaining(m.lyricsLimit, m.lyricsUsed) + k.lyrics,
       musicLimit := Remaining(m.musicLimit, m.musicUsed) + k.music,
       expireTime := expire)
  }

  /** The refusal the request draws, checked in the source's order, or None if it is accepted. */
  function Refusal(st: State, code: string, email: string): (e: Option<ActivationError>)
    ensures (code == "" || email == "") ==> e == Some(MissingInput)
    ensures code != "" && email != "" && code !in st.keys ==> e == Some(KeyNotFound)
    ensures code != "" && email != "" && code in st.keys ==>
      var k := st.keys[code];
      && (k.status.Activated? ==> e == Some(AlreadyActivated(k.activatedBy)))
      && (k.status.Consumed? ==> e == Some(AlreadyConsumed))
      && (k.status.Frozen? ==> e == Some(KeyFrozen))
      && ((k.status.Unactivated? || k.status.Unknown?) ==>
            (e.None? <==> email in st.users) && (e.Some? ==> e == Some(UserNotRegistered)))
  {
    if code == "" || email == "" then Some(MissingInput)
    else if code !in st.keys then Some(KeyNotFound)
    else if StatusRefusal(st.keys[code]).Some? then StatusRefusal(st.keys[code])
    else if email !in st.users then Some(UserNotRegistered)
    else None
  }

  /** Activates card `code` for `email` at time `now`. */
  function Activate(st: State, code: string, email: string, now: int): (out: Outcome<Receipt, ActivationError>)
    ensures Refusal(st, code, email).Some? ==>
      out == Outcome(Err(Refusal(st, code, email).value), st)
    ensures out.result.Ok? <==> Refusal(st, code, email).None?
    ensures out.result.Ok? ==> code in st.keys && email in out.next.members
    ensures out.result.Ok? ==>
      var k := st.keys[code];
      var m' := out.next.members[email];
      && out.result.value == Receipt(email, k.level, Benefits.LevelName(k.level),
                                       m'.expireTime, k.lyrics, k.music, k.days)
      && out.next.keys == st.keys[code := k.(status := Activated, activatedBy := Some(email),
                                              activatedTime := Some(now),
                                              expireTime := Some(m'.expireTime))]
      && out.next.members == st.members[email := m']
      && out.next.users == st.users && out.next.usageLog == st.usageLog
      && out.next.nextUserId == st.nextUserId
      && (LiveMember(st, email, now) ==>
            m' == Renew(st.members[email], k, now) && out.next.nextMemberId == st.nextMemberId)
      && (!LiveMember(st, email, now) ==>
            m' == NewMember(st.nextMemberId, k, now) && out.next.nextMemberId == st.nextMemberId + 1)
  {
    match Refusal(st, code, email)
    case Some(e) => Outcome(Err(e), st)
    case None =>
      var k := st.keys[code];
      var live := LiveMember(st, email, now);
      var m' := if live then Renew(st.members[email], k, now) else NewMember(st.nextMemberId, k, now);
      var k' := k.(status := Activated, activatedBy := Some(email),
                   activatedTime := Some(now), expireTime := Some(m'.expireTime));
      var st' := st.(keys := st.keys[code := k'],
                     members := st.members[email := m'],
                     nextMemberId := if live then st.nextMemberId else st.nextMemberId + 1);
      Outcome(Ok(Receipt(email, k.level, Benefits.LevelName(k.level),
                           m'.expireTime, k.lyrics, k.music, k.days)), st')
  }

  /** The merge arithmetic of a renewal, in the terms the response and the ledger use: the
      expiry moves from the old expiry (never from `now`: the lookup only finds rows with
      `expire_time > now`, so the lapsed branch of the merge is never taken), and each limit
      is the old remainder plus the grant. */
  lemma RenewalArithmetic(st: State, code: string, email: string, now: int)
    requires Valid(st)
    requires Activate(st, code, email, now).result.Ok?
    requires LiveMember(st, email, now)
    ensures
      var k := st.keys[code];
      var m := st.members[email];
      var m' := Activate(st, code, email, now).next.members[email];
      && m'.expireTime == m.expireTime + k.days * Day
      && m'.expireTime >= m.expireTime && m'.expireTime > now
      && m'.lyricsLimit == (if m.lyricsLimit > m.lyricsUsed then m.lyricsLimit - m.lyricsUsed else 0) + k.lyrics
      && m'.musicLimit == (if m.musicLimit > m.musicUsed then m.musicLimit - m.musicUsed else 0) + k.music
      && m'.lyricsUsed == m.lyricsUsed && m'.musicUsed == m.musicUsed
  {
    assert KeyGrantsValid(st.keys[code]);
  }

  /** A first activation (or one after the previous membership lapsed) starts a fresh
      membership: `now` plus the card's days, the card's quotas, nothing used. */
  lemma NewMembership(st: State, code: string, email: string, now: int)
    requires Valid(st)
    requires Activate(st, code, email, now).result.Ok?
    requires !LiveMember(st, email, now)
    ensures
      var k := st.keys[code];
      var m' := Activate(st, code, email, now).next.members[email];
      && m'.expireTime == now + k.days * Day
      && m'.lyricsLimit == k.lyrics && m'.musicLimit == k.music
      && m'.lyricsUsed == 0 && m'.musicUsed == 0
      && m'.level == k.level
      && m'.id !in (set e | e in st.members :: st.members[e].id)
  {
  }

  /** Activation never shortens a membership: whatever row the user had, live or lapsed, the
      new expiry is at least the old one, and it is always in the future. */
  lemma ExpiryNeverDecreases(st: State, code: string, email: string, now: int)
    requires Valid(st)
    requires Activate(st, code, email, now).result.Ok?
    ensures
      var m' := Activate(st, code, email, now).next.members[email];
      && m'.expireTime > now
      && (email in st.members ==> m'.expireTime >= st.members[email].expireTime)
  {
    assert KeyGrantsValid(st.keys[code]);
  }

  /** A key activates at most once: after a successful activation, any later activation of
      the same code, by anyone, is refused with the first activator's email and changes nothing. */
  lemma NoReplay(st: State, code: string, email: string, now: int, email2: string, later: int)
    requires Activate(st, code, email, now).result.Ok?
    requires email2 != ""
    ensures
      var st' := Activate(st, code, email, now).next;
      Activate(st', code, email2, later) == Outcome(Err(AlreadyActivated(Some(email))), st')
  {
  }

  /** Activation keeps the table invariants. */
  lemma ActivatePreservesValid(st: State, code: string, email: string, now: int)
    requires Valid(st)
    ensures Valid(Activate(st, code, email, now).next)
  {
    var out := Activate(st, code, email, now);
    if out.result.Ok? {
      var k := st.keys[code];
      assert KeyGrantsValid(k);
      var st' := out.next;
      forall e | e in st'.members
        ensures MemberCountsValid(st'.members[e]) && 1 <= st'.members[e].id < st'.nextMemberId
      {
        if e != email { assert MemberCountsValid(st.members[e]); }
      }
    }
  }
}

=== FILE: auth.dfy ===
/** Registration and login (auth.py): credential validation, verification-key shaping and the
    device-binding state machine over the stored hardware id. Password hashing (salted SHA-256)
    is a parameter `hash(password, salt)`; salts and key characters are random draws passed in. */
module Auth {
  import opened Wrappers
  import opened Store

  /** ASCII digits; the character classes below model `str.isdigit`, `str.isalpha` and `\d`
      on ASCII input only. */
  predicate IsDigit(c: char)
  {
    '0' <= c <= '9'
  }

  predicate IsLetter(c: char)
  {
    ('A' <= c <= 'Z') || ('a' <= c <= 'z')
  }

  predicate HasLetter(s: string)
  {
    exists i :: 0 <= i < |s| && IsLetter(s[i])
  }

  predicate HasDigit(s: string)
  {
    exists i :: 0 <= i < |s| && IsDigit(s[i])
  }

  predicate AllDigits(s: string)
  {
    forall i :: 0 <= i < |s| ==> IsDigit(s[i])
  }

  /** The fixed domain of every registrable email. */
  const QQSuffix: string := "@qq.com"

  /** `re.match(r'^\d+@qq\.com$', email)` on a stripped email: one or more digits, then the
      suffix, then nothing. */
  predicate ValidEmail(email: string)
    ensures ValidEmail(email) ==> |email| >= 8 && IsDigit(email[0]) && HasDigit(email)
    ensures ValidEmail(email) ==> !IsDigit(email[|email| - |QQSuffix|]) && !AllDigits(email)
  {
    |email| > |QQSuffix|
    && email[|email| - |QQSuffix|..] == QQSuffix
    && AllDigits(email[..|email| - |QQSuffix|])
  }

  /** The regular expression's shape, read as a decomposition: a valid email is exactly a
      non-empty digit string followed by "@qq.com". */
  lemma ValidEmailIsDigitsThenSuffix(email: string)
    ensures ValidEmail(email) <==>
      exists digits :: digits != [] && AllDigits(digits) && email == digits + QQSuffix
  {
    if ValidEmail(email) {
      var digits := email[..|email| - |QQSuffix|];
      assert email == digits + QQSuffix;
    }
    if exists digits :: digits != [] && AllDigits(digits) && email == digits + QQSuffix {
      var digits :| digits != [] && AllDigits(digits) && email == digits + QQSuffix;
      assert email[..|digits|] == digits;
      assert email[|digits|..] == QQSuffix;
    }
  }

  /** Number of ASCII digits, `sum(c.isdigit() for c in password)`. */
  function DigitCount(s: string): (n: nat)
    ensures n <= |s|
  {
    if s == [] then 0 else (if IsDigit(s[0]) then 1 else 0) + DigitCount(s[1..])
  }

  /** Counting digits distributes over concatenation. */
  lemma {:induction false} DigitCountAppend(a: string, b: string)
    ensures DigitCount(a + b) == DigitCount(a) + DigitCount(b)
  {
    if a != [] {
      assert (a + b)[1..] == a[1..] + b;
      DigitCountAppend(a[1..], b);
    } else {
      assert a + b == b;
    }
  }

  /** The digit count is the number of positions holding a digit. */
  lemma {:induction false} DigitCountIsDigitPositions(s: string)
    ensures DigitCount(s) == |set i | 0 <= i < |s| && IsDigit(s[i])|
  {
    if s != [] {
      var n := |s| - 1;
      var init := s[..n];
      DigitCountIsDigitPositions(init);
      assert s == init + [s[n]];
      DigitCountAppend(init, [s[n]]);
      var before := set i | 0 <= i < n && IsDigit(init[i]);
      var all := set i | 0 <= i < |s| && IsDigit(s[i]);
      assert before == set i | 0 <= i < n && IsDigit(s[i]);
      if IsDigit(s[n]) {
        assert all == before + {n};
      } else {
        assert all == before;
      }
    }
  }

  datatype RegisterError =
    | InvalidEmail
    | PasswordTooShort
    | PasswordNoLetter
    | PasswordTooFewDigits
    | EmailTaken

  /** The password rules, checked in order; the first that fails is reported. */
  function PasswordRefusal(password: string): (e: Option<RegisterError>)
    ensures e.None? <==> |password| >= 8 && HasLetter(password) && DigitCount(password) >= 5
    ensures |password| < 8 ==> e == Some(PasswordTooShort)
    ensures |password| >= 8 && !HasLetter(password) ==> e == Some(PasswordNoLetter)
    ensures |password| >= 8 && HasLetter(password) && DigitCount(password) < 5 ==>
      e == Some(PasswordTooFewDigits)
  {
    if |password| < 8 then Some(PasswordTooShort)
    else if !HasLetter(password) then Some(PasswordNoLetter)
    else if DigitCount(password) < 5 then Some(PasswordTooFewDigits)
    else None
  }

  /** Six characters drawn by `random.choices(ascii_uppercase + digits, k=6)`. */
  predicate IsKeyDraw(d: string)
  {
    |d| == 6 && forall i :: 0 <= i < 6 ==> InAlphabet(d[i])
  }

  /** The verification key: the draw, with its last character forced to 'A' if it had no
      letter, and then to '1' if it had no digit. */
  function VerificationKey(draw: string): (key: string)
    requires IsKeyDraw(draw)
    ensures IsKeyDraw(key)
    ensures HasLetter(key) && HasDigit(key)
    ensures HasLetter(draw) && HasDigit(draw) ==> key == draw
    ensures key[..5] == draw[..5]
  {
    var k1 := if !HasLetter(draw) then draw[..5] + "A" else draw;
    assert k1[5] == 'A' || k1 == draw;
    assert HasLetter(k1) by { if HasLetter(draw) { assert k1 == draw; } else { assert IsLetter(k1[5]); } }
    var k2 := if !HasDigit(k1) then k1[..5] + "1" else k1;
    assert HasDigit(k2) by { if HasDigit(k1) { assert k2 == k1; } else { assert IsDigit(k2[5]); } }
    assert HasLetter(k2) by {
      if !HasDigit(k1) {
        // k1 had no digit, so its first five characters, all upper-case letters, survive.
        assert !IsDigit(k1[0]);
        assert InAlphabet(draw[0]) && k1[0] == draw[0];
        assert IsLetter(k2[0]);
      }
    }
    k2
  }

  /** The registration response. Its `userId` is `cursor.lastrowid`, which the PostgreSQL
      driver sets to the inserted row's OID; the users table has no OIDs, so the response
      carries no id (`None`) even though the row gets the next SERIAL id. */
  datatype Registered = Registered(verificationKey: string, userId: Option<nat>, email: string, createdAt: int)

  /** Registers `email` with `password` at `now`, given the random salt and key draw. */
  function Register(st: State, email: string, password: string, salt: string, keyDraw: string,
                    hash: (string, string) -> string, now: int): (out: Outcome<Registered, RegisterError>)
    requires IsKeyDraw(keyDraw)
    ensures !ValidEmail(email) ==> out == Outcome(Err(InvalidEmail), st)
    ensures ValidEmail(email) && PasswordRefusal(password).Some? ==>
      out == Outcome(Err(PasswordRefusal(password).value), st)
    ensures ValidEmail(email) && PasswordRefusal(password).None? && email in st.users ==>
      out == Outcome(Err(EmailTaken), st)
    ensures out.result.Ok? <==>
      ValidEmail(email) && PasswordRefusal(password).None? && email !in st.users
    ensures out.result.Err? ==> out.next == st
    ensures out.result.Ok? ==>
      var key := out.result.value.verificationKey;
      && key == VerificationKey(keyDraw)
      && IsKeyDraw(key) && HasLetter(key) && HasDigit(key)
      && out.result.value.userId.None?
      && out.result.value.email == email && out.result.value.createdAt == now
      && out.next == st.(users := st.users[email := User(st.nextUserId, salt, hash(password, salt), key, "", now, None)],
                         nextUserId := st.nextUserId + 1)
  {
    if !ValidEmail(email) then Outcome(Err(InvalidEmail), st)
    else if PasswordRefusal(password).Some? then Outcome(Err(PasswordRefusal(password).value), st)
    else if email in st.users then Outcome(Err(EmailTaken), st)
    else
      var key := VerificationKey(keyDraw);
      var user := User(st.nextUserId, salt, hash(password, salt), key, "", now, None);
      Outcome(Ok(Registered(key, None, email, now)),
              st.(users := st.users[email := user], nextUserId := st.nextUserId + 1))
  }

  lemma RegisterPreservesValid(st: State, email: string, password: string, salt: string, keyDraw: string,
                               hash: (string, string) -> string, now: int)
    requires Valid(st) && IsKeyDraw(keyDraw)
    ensures Valid(Register(st, email, password, salt, keyDraw, hash, now).next)
  {
  }

  /** Why a login is refused. */
  datatype LoginError =
    | MissingCredentials
      /** Unknown user and wrong password share this one response. */
    | BadCredentials
    | NewDeviceNeedsKey
    | WrongVerificationKey

  /** The device-binding decision for an account whose password matched: the hardware id to
      store, or the refusal. `stored` is the bound id ("" when none), `supplied` and `key` the
      request's hardware id and verification key ("" when absent). */
  function DeviceCheck(stored: string, storedKey: string, supplied: string, key: string): (r: Result<string, LoginError>)
    ensures stored != "" && supplied != stored && key == "" ==> r == Err(NewDeviceNeedsKey)
    ensures stored != "" && supplied != stored && key != "" && key != storedKey ==> r == Err(WrongVerificationKey)
    ensures key == "" ==> (r.Ok? <==> stored == "" || stored == supplied)
    ensures r.Ok? <==> stored == "" || stored == supplied || (key != "" && key == storedKey)
    ensures r.Ok? ==> r.value == (if supplied != "" then supplied else stored)
  {
    if stored != "" then
      if supplied == "" || supplied != stored then
        if key == "" then Err(NewDeviceNeedsKey)
        else if key != storedKey then Err(WrongVerificationKey)
        else Ok(if supplied != "" then supplied else stored)
      else Ok(stored)
    else Ok(if supplied != "" then supplied else stored)
  }

  /** Whole days left of `seconds`, as the login response counts them: `timedelta.days`
      rounded down, but at least one. */
  function DaysRoundedDown(seconds: int): (d: int)
    requires seconds > 0
    ensures d >= 1
    ensures d == 1 <==> seconds < 2 * Day
    ensures d > 1 ==> d * Day <= seconds < (d + 1) * Day
  {
    Max(1, seconds / Day)
  }

  datatype LoginMemberView = LoginMemberView(
    level: int,
    expireTime: int,
    remainingDays: int,
    lyricsRemaining: int,
    musicRemaining: int,
    lyricsUsed: int,
    lyricsLimit: int,
    musicUsed: int,
    musicLimit: int)

  datatype LoggedIn = LoggedIn(userId: nat, email: string, isMember: bool, lastLogin: int,
                               member: Option<LoginMemberView>)

  /** The membership part of the login response. */
  function LoginView(m: Member, now: int): (v: LoginMemberView)
    requires m.expireTime > now
    ensures v.lyricsRemaining == Remaining(m.lyricsLimit, m.lyricsUsed)
    ensures v.musicRemaining == Remaining(m.musicLimit, m.musicUsed)
    ensures v.remainingDays == DaysRoundedDown(m.expireTime - now)
    ensures v.level == m.level && v.expireTime == m.expireTime
    ensures v.lyricsUsed == m.lyricsUsed && v.lyricsLimit == m.lyricsLimit
    ensures v.musicUsed == m.musicUsed && v.musicLimit == m.musicLimit
  {
    LoginMemberView(m.level, m.expireTime, DaysRoundedDown(m.expireTime - now),
                    Remaining(m.lyricsLimit, m.lyricsUsed), Remaining(m.musicLimit, m.musicUsed),
                    m.lyricsUsed, m.lyricsLimit, m.musicUsed, m.musicLimit)
  }

  /** Logs `email` in at `now` from device `hardwareId`, with optional verification `key`. */
  function Login(st: State, email: string, password: string, key: string, hardwareId: string,
                 hash: (string, string) -> string, now: int): (out: Outcome<LoggedIn, LoginError>)
    ensures email == "" || password == "" ==> out == Outcome(Err(MissingCredentials), st)
    ensures email != "" && password != "" && email !in st.users ==> out == Outcome(Err(BadCredentials), st)
    ensures email != "" && password != "" && email in st.users &&
            hash(password, st.users[email].salt) != st.users[email].passwordHash ==>
      out == Outcome(Err(BadCredentials), st)
    ensures email != "" && password != "" && email in st.users &&
            hash(password, st.users[email].salt) == st.users[email].passwordHash &&
            DeviceCheck(st.users[email].hardwareId, st.users[email].verificationKey, hardwareId, key).Err? ==>
      out == Outcome(Err(DeviceCheck(st.users[email].hardwareId, st.users[email].verificationKey, hardwareId, key).error), st)
    ensures out.result.Err? ==> out.next == st
    ensures out.result.Ok? <==>
      && email != "" && password != "" && email in st.users
      && hash(password, st.users[email].salt) == st.users[email].passwordHash
      && DeviceCheck(st.users[email].hardwareId, st.users[email].verificationKey, hardwareId, key).Ok?
    ensures out.result.Ok? ==>
      var u := st.users[email];
      && out.next == st.(users := st.users[email := u.(
           hardwareId := if hardwareId != "" then hardwareId else u.hardwareId,
           lastLogin := Some(now))])
      && out.result.value.userId == u.id
      && out.result.value.email == email
      && out.result.value.lastLogin == now
      && (out.result.value.isMember <==> LiveMember(st, email, now))
      && (out.result.value.member.Some? <==> LiveMember(st, email, now))
      && (LiveMember(st, email, now) ==> out.result.value.member == Some(LoginView(st.members[email], now)))
  {
    if email == "" || password == "" then Outcome(Err(MissingCredentials), st)
    else if email !in st.users then Outcome(Err(BadCredentials), st)
    else
      var u := st.users[email];
      if hash(password, u.salt) != u.passwordHash then Outcome(Err(BadCredentials), st)
      else match DeviceCheck(u.hardwareId, u.verificationKey, hardwareId, key)
        case Err(e) => Outcome(Err(e), st)
        case Ok(bound) =>
          var st' := st.(users := st.users[email := u.(hardwareId := bound, lastLogin := Some(now))]);
          var view := if LiveMember(st, email, now) then Some(LoginView(st.members[email], now)) else None;
          Outcome(Ok(LoggedIn(u.id, email, view.Some?, now, view)), st')
  }

  lemma LoginPreservesValid(st: State, email: string, password: string, key: string, hardwareId: string,
                            hash: (string, string) -> string, now: int)
    requires Valid(st)
    ensures Valid(Login(st, email, password, key, hardwareId, hash, now).next)
  {
  }
}

=== FILE: benefits.dfy ===
/** The fixed four-level benefit table of the membership system (vip.py, VIP_BENEFITS). */
module Benefits {
  import opened Wrappers

  /** One row of the table; the unused price and description fields are not modelled. */
  datatype Benefit = Benefit(name: string, days: nat, lyrics: nat, music: nat)

  /** The table lookup `level in VIP_BENEFITS`: defined for levels 1 to 4 only. */
  function Lookup(level: int): (b: Option<Benefit>)
    ensures b.Some? <==> 1 <= level <= 4
    ensures b.Some? ==> b.value.days > 0 && b.value.lyrics > 0 && b.value.music > 0
  {
    if level == 1 then Some(Benefit("体验会员", 7, 50, 10))
    else if level == 2 then Some(Benefit("月度会员", 30, 200, 50))
    else if level == 3 then Some(Benefit("季度会员", 90, 600, 150))
    else if level == 4 then Some(Benefit("年度会员", 365, 2400, 600))
    else None
  }

  /** `VIP_BENEFITS.get(level, {}).get('name', '会员')`: the table name, or a generic one. */
  function LevelName(level: int): (n: string)
    ensures Lookup(level).Some? ==> n == Lookup(level).value.name
    ensures Lookup(level).None? ==> n == "会员"
  {
    match Lookup(level)
    case Some(b) => b.name
    case None => "会员"
  }
}

=== FILE: cardkeys.dfy ===
/** Card-key issuance (vip.py, generate_card_key): codes of the form VIP-XXXX-XXXX-XXXX-XXXX
    drawn from A-Z0-9, regenerated until absent from the store, inserted as unactivated. */
module CardKeys {
  import opened Wrappers
  import opened Store
  import Benefits

  /** One random draw of the sixteen code characters, as `random.choices` yields them. */
  predicate IsDraw(d: string)
  {
    |d| == 16 && forall i :: 0 <= i < 16 ==> InAlphabet(d[i])
  }

  /** Every draw of a sequence is one. */
  predicate AllDraws(draws: seq<string>)
  {
    forall k :: 0 <= k < |draws| ==> IsDraw(draws[k])
  }

  /** The textual format of a card key, position by position. */
  predicate IsKeyCode(s: string)
  {
    && |s| == 23
    && s[..4] == "VIP-"
    && s[8] == '-' && s[13] == '-' && s[18] == '-'
    && forall i :: 4 <= i < 23 && i != 8 && i != 13 && i != 18 ==> InAlphabet(s[i])
  }

  /** `'VIP-' + '-'.join(segments)` over the four groups of four characters of a draw. */
  function FormatCode(d: string): (code: string)
    requires |d| == 16
    ensures |code| == 23
  {
    "VIP-" + d[..4] + "-" + d[4..8] + "-" + d[8..12] + "-" + d[12..]
  }

  /** The sixteen group characters of a code, hyphens and prefix removed. */
  function Groups(code: string): (d: string)
    requires |code| == 23
    ensures |d| == 16
  {
    code[4..8] + code[9..13] + code[14..18] + code[19..]
  }

  lemma FormatCodeChars(d: string)
    requires |d| == 16
    ensures forall i :: 0 <= i < 4 ==> FormatCode(d)[4 + i] == d[i]
    ensures forall i :: 4 <= i < 8 ==> FormatCode(d)[5 + i] == d[i]
    ensures forall i :: 8 <= i < 12 ==> FormatCode(d)[6 + i] == d[i]
    ensures forall i :: 12 <= i < 16 ==> FormatCode(d)[7 + i] == d[i]
    ensures FormatCode(d)[..4] == "VIP-"
    ensures FormatCode(d)[8] == '-' && FormatCode(d)[13] == '-' && FormatCode(d)[18] == '-'
  {
  }

  /** Every formatted draw is a well-formed card key. */
  lemma FormatCodeIsKeyCode(d: string)
    requires IsDraw(d)
    ensures IsKeyCode(FormatCode(d))
  {
    FormatCodeChars(d);
    var s := FormatCode(d);
    forall i | 4 <= i < 23 && i != 8 && i != 13 && i != 18
      ensures InAlphabet(s[i])
    {
      if i < 8 { assert s[i] == d[i - 4]; }
      else if i < 13 { assert s[i] == d[i - 5]; }
      else if i < 18 { assert s[i] == d[i - 6]; }
      else { assert s[i] == d[i - 7]; }
    }
  }

  /** Formatting loses nothing: the groups of a formatted draw are the draw. */
  lemma GroupsOfFormat(d: string)
    requires |d| == 16
    ensures Groups(FormatCode(d)) == d
  {
    FormatCodeChars(d);
    var g := Groups(FormatCode(d));
    forall i | 0 <= i < 16
      ensures g[i] == d[i]
    {
    }
  }

  /** Conversely, every well-formed code is the format of its own groups. */
  lemma FormatOfGroups(code: string)
    requires IsKeyCode(code)
    ensures IsDraw(Groups(code))
    ensures FormatCode(Groups(code)) == code
  {
    var g := Groups(code);
    FormatCodeChars(g);
    assert code[..4] == "VIP-";
    var f := FormatCode(g);
    forall i | 0 <= i < 23
      ensures f[i] == code[i]
    {
      if i < 4 { assert f[..4][i] == code[..4][i]; }
      else if i == 8 || i == 13 || i == 18 { }
      else if i < 8 { assert f[i] == g[i - 4] == code[i]; }
      else if i < 13 { assert f[i] == g[i - 5] == code[i]; }
      else if i < 18 { assert f[i] == g[i - 6] == code[i]; }
      else { assert f[i] == g[i - 7] == code[i]; }
    }
    assert f == code;
  }

  /** Distinct draws give distinct codes. */
  lemma FormatCodeInjective(d1: string, d2: string)
    requires |d1| == 16 && |d2| == 16
    requires FormatCode(d1) == FormatCode(d2)
    ensures d1 == d2
  {
    GroupsOfFormat(d1);
    GroupsOfFormat(d2);
  }

  /** The row inserted for a new code: the level's benefits, status '未激活'. A row made from the
      benefits of a known level is one the store invariant admits. */
  function NewKey(level: int, b: Benefits.Benefit, now: int): (k: CardKey)
    ensures StatusOf(StatusText(k.status)) == Unactivated
    ensures k.activatedBy.None? && k.activatedTime.None? && k.expireTime.None?
    ensures Benefits.Lookup(level) == Some(b) ==> KeyGrantsValid(k) && StatusWellFormed(k.status)
  {
    CardKey(level, b.days, b.lyrics, b.music, Unactivated, None, None, None, now)
  }

  /** One entry of the response list. */
  datatype IssuedKey = IssuedKey(code: string, levelName: string, days: nat, lyrics: nat, music: nat)

  datatype IssueError =
    | InvalidLevel(level: int)
      /** The draws supplied ran out before a free code was found; the source keeps drawing. */
    | DrawsExhausted

  /** The codes of an issued batch. */
  function Codes(batch: seq<IssuedKey>): (cs: seq<string>)
    ensures |cs| == |batch|
    ensures forall i :: 0 <= i < |batch| ==> cs[i] == batch[i].code
  {
    seq(|batch|, i requires 0 <= i < |batch| => batch[i].code)
  }

  /** The response entries for a list of codes of one level. */
  function Entries(cs: seq<string>, b: Benefits.Benefit): (batch: seq<IssuedKey>)
    ensures |batch| == |cs|
    ensures forall i :: 0 <= i < |cs| ==> batch[i] == IssuedKey(cs[i], b.name, b.days, b.lyrics, b.music)
    ensures Codes(batch) == cs
  {
    seq(|cs|, i requires 0 <= i < |cs| => IssuedKey(cs[i], b.name, b.days, b.lyrics, b.music))
  }

  predicate PairwiseDistinct(cs: seq<string>)
  {
    forall i, j :: 0 <= i < j < |cs| ==> cs[i] != cs[j]
  }

  /** The codes are well formed, pairwise distinct and were all absent from `before`. */
  predicate FreshCodes(cs: seq<string>, before: map<string, CardKey>)
  {
    && PairwiseDistinct(cs)
    && forall i :: 0 <= i < |cs| ==> IsKeyCode(cs[i]) && cs[i] !in before
  }

  /** `after` is `before` plus one `row` under each code of `cs`, and nothing else. */
  predicate Inserted(after: map<string, CardKey>, before: map<string, CardKey>, cs: seq<string>, row: CardKey)
  {
    && (forall c :: c in after ==> c in before || c in cs)
    && (forall c :: c in cs ==> c in after)
    && (forall c :: c in before ==> c in after)
    && (forall c :: c in before && c in after ==> after[c] == before[c])
    && (forall c :: c in cs && c in after ==> after[c] == row)
  }

  lemma InsertOne(after: map<string, CardKey>, before: map<string, CardKey>, cs: seq<string>, row: CardKey, code: string)
    requires FreshCodes(cs, before) && Inserted(after, before, cs, row)
    requires IsKeyCode(code) && code !in after
    ensures FreshCodes(cs + [code], before)
    ensures Inserted(after[code := row], before, cs + [code], row)
  {
  }

  /** Reference definition of the codes a batch of `n` keys gets: walking the draws in order
      from index `from`, a draw whose code is already `taken` is skipped, any other is kept and
      its code becomes taken. `None` when the draws run out first. */
  function Picked(taken: set<string>, draws: seq<string>, from: nat, n: nat): Option<seq<string>>
    requires AllDraws(draws) && from <= |draws|
    decreases |draws| - from
  {
    if n == 0 then Some([])
    else if from == |draws| then None
    else if FormatCode(draws[from]) in taken then Picked(taken, draws, from + 1, n)
    else Prepend([FormatCode(draws[from])], Picked(taken + {FormatCode(draws[from])}, draws, from + 1, n - 1))
  }

  function Prepend(cs: seq<string>, o: Option<seq<string>>): Option<seq<string>>
  {
    match o
    case None => None
    case Some(rest) => Some(cs + rest)
  }

  lemma PrependTwice(cs: seq<string>, c: string, o: Option<seq<string>>)
    ensures Prepend(cs, Prepend([c], o)) == Prepend(cs + [c], o)
  {
    if o.Some? {
      assert cs + ([c] + o.value) == (cs + [c]) + o.value;
    }
  }

  /** Keeping the draw at `from` takes no code of a later, different draw. */
  lemma LaterCodesStayFree(taken: set<string>, draws: seq<string>, from: nat)
    requires AllDraws(draws) && from < |draws|
    requires forall i, j :: from <= i < j < |draws| ==> draws[i] != draws[j]
    requires forall k :: from <= k < |draws| ==> FormatCode(draws[k]) !in taken
    ensures forall k :: from + 1 <= k < |draws| ==> FormatCode(draws[k]) !in taken + {FormatCode(draws[from])}
  {
    forall k | from + 1 <= k < |draws|
      ensures FormatCode(draws[k]) != FormatCode(draws[from])
    {
      assert draws[k] != draws[from];
      GroupsOfFormat(draws[k]);
      GroupsOfFormat(draws[from]);
    }
  }

  /** The codes of the `n` draws from index `from`, in order. */
  function CodesOf(draws: seq<string>, from: nat, n: nat): (cs: seq<string>)
    requires AllDraws(draws) && from + n <= |draws|
    ensures |cs| == n
    ensures forall k :: 0 <= k < n ==> cs[k] == FormatCode(draws[from + k])
    decreases n
  {
    if n == 0 then [] else [FormatCode(draws[from])] + CodesOf(draws, from + 1, n - 1)
  }

  /** When the draws from `from` on are distinct and their codes are free, the batch is exactly
      the codes of the next `n` draws, in order. */
  lemma {:induction false} PickedFreshDraws(taken: set<string>, draws: seq<string>, from: nat, n: nat)
    requires AllDraws(draws) && from + n <= |draws|
    requires forall i, j :: from <= i < j < |draws| ==> draws[i] != draws[j]
    requires forall k :: from <= k < |draws| ==> FormatCode(draws[k]) !in taken
    ensures Picked(taken, draws, from, n) == Some(CodesOf(draws, from, n))
    decreases n
  {
    if n > 0 {
      var c := FormatCode(draws[from]);
      LaterCodesStayFree(taken, draws, from);
      PickedFreshDraws(taken + {c}, draws, from + 1, n - 1);
      assert c !in taken;
    }
  }

  /** The code of draw `d` is already in the store. */
  predicate Stored(keys: map<string, CardKey>, d: string)
    requires |d| == 16
  {
    FormatCode(d) in keys
  }

  /** Regenerates until the candidate is absent from the store: the first draw from `next` on
      whose code is not stored, or `|draws|` when there is none. Skipping changes nothing
      about the `m` codes still to pick. */
  method NextFree(keys: map<string, CardKey>, draws: seq<string>, next: nat, ghost m: nat) returns (free: nat)
    requires AllDraws(draws) && next <= |draws| && m > 0
    ensures next <= free <= |draws|
    ensures forall k :: next <= k < free ==> Stored(keys, draws[k])
    ensures free < |draws| ==> FormatCode(draws[free]) !in keys
    ensures Picked(keys.Keys, draws, free, m) == Picked(keys.Keys, draws, next, m)
  {
    free := next;
    while free < |draws| && FormatCode(draws[free]) in keys
      invariant next <= free <= |draws|
      invariant forall k :: next <= k < free ==> Stored(keys, draws[k])
      invariant Picked(keys.Keys, draws, free, m) == Picked(keys.Keys, draws, next, m)
      decreases |draws| - free
    {
      free := free + 1;
    }
  }

  /** The search of one turn, as it bears on the batch: either the draws run out and the
      whole batch fails, or a free code is found and the rest of the batch starts there. */
  method Seek(keys: map<string, CardKey>, draws: seq<string>, next: nat, m: nat,
              ghost cs: seq<string>, ghost whole: Option<seq<string>>) returns (free: nat)
    requires AllDraws(draws) && next <= |draws| && m > 0
    requires whole == Prepend(cs, Picked(keys.Keys, draws, next, m))
    ensures next <= free <= |draws|
    ensures free == |draws| ==> whole == None
    ensures free < |draws| ==> FormatCode(draws[free]) !in keys
    ensures whole == Prepend(cs, Picked(keys.Keys, draws, free, m))
  {
    free := NextFree(keys, draws, next, m);
    assert free == |draws| ==> Picked(keys.Keys, draws, free, m) == None;
  }

  /** Storing `row` under the free code at `free` keeps the loop's facts. */
  lemma KeepFree(before: map<string, CardKey>, keys: map<string, CardKey>, cs: seq<string>,
                 draws: seq<string>, free: nat, n: nat, row: CardKey, whole: Option<seq<string>>)
    requires AllDraws(draws) && free < |draws| && |cs| < n
    requires FormatCode(draws[free]) !in keys
    requires FreshCodes(cs, before) && Inserted(keys, before, cs, row)
    requires whole == Prepend(cs, Picked(keys.Keys, draws, free, n - |cs|))
    ensures
      var code := FormatCode(draws[free]);
      && FreshCodes(cs + [code], before) && Inserted(keys[code := row], before, cs + [code], row)
      && whole == Prepend(cs + [code], Picked(keys[code := row].Keys, draws, free + 1, n - |cs| - 1))
  {
    var code := FormatCode(draws[free]);
    FormatCodeIsKeyCode(draws[free]);
    InsertOne(keys, before, cs, row, code);
    PrependTwice(cs, code, Picked(keys.Keys + {code}, draws, free + 1, n - |cs| - 1));
    assert keys[code := row].Keys == keys.Keys + {code};
  }

  /** One turn of the `for` loop: regenerate from `next` until the code is free, then store
      `row` under it. That code moves from the rest of the batch to the codes picked so far;
      `ok` is false, and the whole batch fails, when the draws run out first. */
  method Step(before: map<string, CardKey>, keys: map<string, CardKey>, cs: seq<string>,
              draws: seq<string>, next: nat, n: nat, row: CardKey, ghost whole: Option<seq<string>>)
    returns (cs': seq<string>, keys': map<string, CardKey>, next': nat, ok: bool)
    requires AllDraws(draws) && next <= |draws| && |cs| < n
    requires FreshCodes(cs, before) && Inserted(keys, before, cs, row)
    requires whole == Prepend(cs, Picked(keys.Keys, draws, next, n - |cs|))
    ensures !ok ==> whole == None
    ensures ok ==> next < next' <= |draws| && |cs'| == |cs| + 1
    ensures ok ==> FreshCodes(cs', before) && Inserted(keys', before, cs', row)
    ensures ok ==> whole == Prepend(cs', Picked(keys'.Keys, draws, next', n - |cs'|))
  {
    var free := Seek(keys, draws, next, n - |cs|, cs, whole);
    if free == |draws| {
      return cs, keys, free, false;
    }
    var code := FormatCode(draws[free]);
    KeepFree(before, keys, cs, draws, free, n, row, whole);
    cs' := cs + [code];
    keys' := keys[code := row];
    next' := free + 1;
    ok := true;
  }

  /** Storing fresh rows with valid grants keeps the store's invariant. */
  lemma InsertedKeepsValid(st: State, keys: map<string, CardKey>, cs: seq<string>, row: CardKey)
    requires Inserted(keys, st.keys, cs, row) && KeyGrantsValid(row) && StatusWellFormed(row.status)
    ensures Valid(st) ==> Valid(st.(keys := keys))
  {
  }

  /** How many keys `for _ in range(quantity)` issues. */
  function BatchSize(quantity: int): (n: nat)
    ensures quantity > 0 ==> n == quantity
    ensures quantity <= 0 ==> n == 0
  {
    if quantity > 0 then quantity else 0
  }

  /** Issues `quantity` keys of `level`. Each code is made from the next unused draw, skipping
      draws whose code is already stored (the batch is `Picked` from the stored codes). A level
      outside the table is refused with nothing stored; a non-positive quantity issues nothing
      (Python's `range` is then empty). */
  method Issue(st: State, level: int, quantity: int, draws: seq<string>, now: int)
    returns (out: Outcome<seq<IssuedKey>, IssueError>)
    requires AllDraws(draws)
    ensures Benefits.Lookup(level).None? ==> out == Outcome(Err(InvalidLevel(level)), st)
    ensures Benefits.Lookup(level).Some? && out.result.Err? ==> out.result.error == DrawsExhausted
    ensures Benefits.Lookup(level).Some? ==>
      (out.result.Ok? <==> Picked(st.keys.Keys, draws, 0, BatchSize(quantity)).Some?)
    ensures out.result.Ok? ==> Codes(out.result.value) == Picked(st.keys.Keys, draws, 0, BatchSize(quantity)).value
    ensures out.result.Err? ==> out.next == st
    ensures Valid(st) ==> Valid(out.next)
    ensures out.result.Ok? ==>
      && 1 <= level <= 4
      && |out.result.value| == BatchSize(quantity)
      && out.result.value == Entries(Codes(out.result.value), Benefits.Lookup(level).value)
      && FreshCodes(Codes(out.result.value), st.keys)
      && Inserted(out.next.keys, st.keys, Codes(out.result.value),
                  NewKey(level, Benefits.Lookup(level).value, now))
      && out.next == st.(keys := out.next.keys)
  {
    var found := Benefits.Lookup(level);
    if found.None? {
      return Outcome(Err(InvalidLevel(level)), st);
    }
    var b := found.value;
    var row := NewKey(level, b, now);
    var cs, keys, ok := Fill(st.keys, draws, BatchSize(quantity), row);
    if !ok {
      return Outcome(Err(DrawsExhausted), st);
    }
    InsertedKeepsValid(st, keys, cs, row);
    out := Outcome(Ok(Entries(cs, b)), st.(keys := keys));
  }

  /** The loop of generate_card_key: `n` times, regenerate until the code is free, then store
      `row` under it. `ok` is false when the draws run out first. */
  method Fill(before: map<string, CardKey>, draws: seq<string>, n: nat, row: CardKey)
    returns (cs: seq<string>, keys: map<string, CardKey>, ok: bool)
    requires AllDraws(draws)
    ensures ok <==> Picked(before.Keys, draws, 0, n).Some?
    ensures ok ==> cs == Picked(before.Keys, draws, 0, n).value
    ensures ok ==> |cs| == n && FreshCodes(cs, before) && Inserted(keys, before, cs, row)
  {
    keys := before;
    cs := [];
    var next := 0;
    ghost var whole := Picked(before.Keys, draws, 0, n);
    assert whole.Some? ==> [] + whole.value == whole.value;
    while |cs| < n
      invariant |cs| <= n
      invariant 0 <= next <= |draws|
      invariant FreshCodes(cs, before)
      invariant Inserted(keys, before, cs, row)
      invariant whole == Prepend(cs, Picked(keys.Keys, draws, next, n - |cs|))
      decreases n - |cs|
    {
      var kept;
      cs, keys, next, kept := Step(before, keys, cs, draws, next, n, row, whole);
      if !kept {
        return cs, keys, false;
      }
    }
    assert Picked(keys.Keys, draws, next, n - |cs|) == Some([]);
    assert cs + [] == cs;
    ok := true;
  }
}

=== FILE: lifecycle.dfy ===
/** Properties that span several operations: the device-binding walk-through, activation
    scenarios, the behaviour of renewal as written, and how the two membership views and
    usage metering agree. */
module Lifecycle {
  import opened Wrappers
  import opened Store
  import Benefits
  import CardKeys
  import Activation
  import Usage
  import Membership
  import Auth

  /** The account of the walk-through is accepted at registration, with its drawn key as is. */
  lemma WalkthroughAccountIsValid()
    ensures Auth.ValidEmail(WalkEmail)
    ensures Auth.PasswordRefusal(WalkPassword).None?
    ensures Auth.VerificationKey(WalkKey) == WalkKey
  {
    var email := WalkEmail;
    assert email[|email| - |Auth.QQSuffix|..] == Auth.QQSuffix;
    var digits := email[..|email| - |Auth.QQSuffix|];
    assert digits == "123456789";
    forall i | 0 <= i < |digits| ensures Auth.IsDigit(digits[i]) {
      assert digits[i] in "123456789";
    }
    var pw := WalkPassword;
    assert Auth.IsLetter(pw[0]);
    assert Auth.DigitCount(pw) == 5;
    assert Auth.IsLetter("A1B2C3"[0]);
    assert Auth.IsDigit("A1B2C3"[1]);
  }

  const WalkEmail: string := "123456789@qq.com"
  const WalkPassword: string := "abc12345"
  const WalkKey: string := "A1B2C3"

  /** The store of the walk-through after registration: the one account, bound to `hw`. */
  function WalkState(hash: (string, string) -> string, salt: string, t: int, hw: string, last: Option<int>): State
  {
    Empty().(users := map[WalkEmail := User(1, salt, hash(WalkPassword, salt), WalkKey, hw, t, last)],
             nextUserId := 2)
  }

  lemma WalkRegister(hash: (string, string) -> string, salt: string, t: int)
    ensures Auth.Register(Empty(), WalkEmail, WalkPassword, salt, WalkKey, hash, t)
         == Outcome(Ok(Auth.Registered(WalkKey, None, WalkEmail, t)), WalkState(hash, salt, t, "", None))
  {
    WalkthroughAccountIsValid();
  }

  lemma WalkLogin(hash: (string, string) -> string, salt: string, t: int, hw: string, last: Option<int>,
                  key: string, supplied: string, now: int)
    ensures
      var st := WalkState(hash, salt, t, hw, last);
      var out := Auth.Login(st, WalkEmail, WalkPassword, key, supplied, hash, now);
      match Auth.DeviceCheck(hw, WalkKey, supplied, key)
      case Ok(bound) => out.result.Ok? && out.next == WalkState(hash, salt, t, bound, Some(now))
      case Err(e) => out == Outcome(Err(e), st)
  {
  }

  /** Register, bind a first device, get refused from a second one without the verification
      key, get in with it, and from then on use the second device without the key. */
  lemma DeviceBindingWalkthrough(hash: (string, string) -> string, salt: string, t: int)
    ensures
      var reg := Auth.Register(Empty(), WalkEmail, WalkPassword, salt, WalkKey, hash, t);
      var first := Auth.Login(reg.next, WalkEmail, WalkPassword, "", "PC-1", hash, t + 1);
      var other := Auth.Login(first.next, WalkEmail, WalkPassword, "", "PC-2", hash, t + 2);
      var verified := Auth.Login(other.next, WalkEmail, WalkPassword, WalkKey, "PC-2", hash, t + 3);
      var again := Auth.Login(verified.next, WalkEmail, WalkPassword, "", "PC-2", hash, t + 4);
      && reg.result.Ok? && reg.result.value.verificationKey == WalkKey
      && first.result.Ok? && first.next.users[WalkEmail].hardwareId == "PC-1"
      && other == Outcome(Err(Auth.NewDeviceNeedsKey), first.next)
      && verified.result.Ok? && verified.next.users[WalkEmail].hardwareId == "PC-2"
      && again.result.Ok? && again.next.users[WalkEmail].hardwareId == "PC-2"
  {
    WalkRegister(hash, salt, t);
    assert Auth.DeviceCheck("", WalkKey, "PC-1", "") == Ok("PC-1");
    WalkLogin(hash, salt, t, "", None, "", "PC-1", t + 1);
    assert Auth.DeviceCheck("PC-1", WalkKey, "PC-2", "") == Err(Auth.NewDeviceNeedsKey);
    WalkLogin(hash, salt, t, "PC-1", Some(t + 1), "", "PC-2", t + 2);
    assert Auth.DeviceCheck("PC-1", WalkKey, "PC-2", WalkKey) == Ok("PC-2");
    WalkLogin(hash, salt, t, "PC-1", Some(t + 1), WalkKey, "PC-2", t + 3);
    assert Auth.DeviceCheck("PC-2", WalkKey, "PC-2", "") == Ok("PC-2");
    WalkLogin(hash, salt, t, "PC-2", Some(t + 3), "", "PC-2", t + 4);
  }

  /** A tier-2 card (30 days, 200 lyrics, 50 music) activated by a registered user with no
      membership starts one: expiry now + 30 days, limits 200/50, nothing used. */
  lemma FirstActivationScenario(st: State, code: string, email: string, now: int)
    requires code != "" && email != "" && email in st.users && email !in st.members
    requires code in st.keys && st.keys[code] == CardKeyOfLevel2(now - 100)
    ensures
      var out := Activation.Activate(st, code, email, now);
      var m := out.next.members[email];
      && out.result.Ok?
      && m.expireTime == now + 30 * Day
      && m.lyricsLimit == 200 && m.musicLimit == 50
      && m.lyricsUsed == 0 && m.musicUsed == 0
  {
  }

  /** The unactivated tier-2 row generate_card_key stores at `created`. */
  function CardKeyOfLevel2(created: int): (k: CardKey)
    ensures k.days == 30 && k.lyrics == 200 && k.music == 50 && k.status.Unactivated?
  {
    CardKeys.NewKey(2, Benefits.Lookup(2).value, created)
  }

  /** A live membership at 200/50 with 150/10 used, five days from expiry, renewed by a tier-2
      card: the expiry moves 30 days past the old one and the limits become the old remainders
      plus the grant, 50 + 200 and 40 + 50. */
  lemma RenewalScenario(st: State, code: string, email: string, now: int)
    requires code != "" && email != "" && email in st.users && email in st.members
    requires code in st.keys && st.keys[code] == CardKeyOfLevel2(now - 100)
    requires
      var m := st.members[email];
      && m.lyricsLimit == 200 && m.lyricsUsed == 150 && m.musicLimit == 50 && m.musicUsed == 10
      && m.expireTime == now + 5 * Day
    ensures
      var out := Activation.Activate(st, code, email, now);
      var m' := out.next.members[email];
      && out.result.Ok?
      && m'.expireTime == st.members[email].expireTime + 30 * Day
      && m'.lyricsLimit == 250 && m'.musicLimit == 90
      && m'.lyricsUsed == 150 && m'.musicUsed == 10
  {
  }

  /** As written, renewal takes the larger of the card's level and the membership row's id, not
      its level: a level-4 member with row id 1 renewing with a level-2 card drops to level 2. */
  lemma RenewalLevelUsesRowId(st: State, code: string, email: string, now: int)
    requires code != "" && email != "" && email in st.users && LiveMember(st, email, now)
    requires code in st.keys && st.keys[code] == CardKeyOfLevel2(now - 100)
    requires st.members[email].level == 4 && st.members[email].id == 1
    ensures
      var out := Activation.Activate(st, code, email, now);
      out.result.Ok? && out.next.members[email].level == 2 < st.members[email].level
  {
  }

  /** The response names the card's level even when the stored level differs: with row id 7,
      a level-2 card leaves the membership at level 7 while the response says 2. */
  lemma ResponseReportsCardLevel(st: State, code: string, email: string, now: int)
    requires code != "" && email != "" && email in st.users && LiveMember(st, email, now)
    requires code in st.keys && st.keys[code] == CardKeyOfLevel2(now - 100)
    requires st.members[email].id == 7
    ensures
      var out := Activation.Activate(st, code, email, now);
      && out.result.Ok?
      && out.result.value.level == 2
      && out.next.members[email].level == 7
  {
  }

  /** As written, renewal replaces the limit by remainder plus grant but keeps the used
      counter, so a renewed membership can have used above limit: 150 of 200 lyrics used,
      renewed with a level-1 card (50 lyrics), ends with limit 100 and 150 used. */
  lemma RenewalCanLeaveUsedAboveLimit(st: State, code: string, email: string, now: int)
    requires code != "" && email != "" && email in st.users && LiveMember(st, email, now)
    requires code in st.keys
    requires st.keys[code] == CardKeys.NewKey(1, Benefits.Lookup(1).value, now - 100)
    requires st.members[email].lyricsLimit == 200 && st.members[email].lyricsUsed == 150
    ensures
      var m' := Activation.Activate(st, code, email, now).next.members[email];
      m'.lyricsLimit == 100 && m'.lyricsUsed == 150 && m'.lyricsUsed > m'.lyricsLimit
  {
  }

  /** A key whose status is none of the four known ones passes the status check and is
      activated like an unactivated one. */
  lemma UnknownStatusActivates(st: State, code: string, email: string, now: int, text: string)
    requires code != "" && email != "" && email in st.users
    requires code in st.keys && st.keys[code].status == Unknown(text) && !KnownStatusText(text)
    ensures
      var out := Activation.Activate(st, code, email, now);
      out.result.Ok? && out.next.keys[code].status == Activated && out.next.keys[code].activatedBy == Some(email)
  {
  }

  /** The login view rounds remaining days down and the membership view rounds them up: both
      are at least one, they differ by at most one day, and they agree exactly when less than
      one day is left or a whole number of days is. */
  lemma DayRoundingDiffers(seconds: int)
    requires seconds > 0
    ensures
      var up := Membership.DaysRoundedUp(seconds);
      var down := Auth.DaysRoundedDown(seconds);
      && down <= up <= down + 1
      && (up == down <==> seconds < Day || seconds % Day == 0)
  {
    var q := seconds / Day;
    var r := seconds % Day;
    assert seconds == q * Day + r;
    assert q >= 0;
    if q == 0 { assert r > 0; }
  }

  /** For a registered user, the membership view shows a positive remaining count of a kind
      exactly when metering that kind at the same moment would succeed. */
  lemma ViewPredictsMetering(st: State, email: string, now: int, usageType: string)
    requires email != "" && email in st.users && Usage.IsUsageType(usageType)
    ensures
      var check := Membership.CheckMembership(st, email, now);
      var record := Usage.RecordUsage(st, email, usageType, now);
      && (check.result == Ok(Membership.NotAMember) <==> record.result == Err(Usage.NotMember))
      && (check.result.Ok? && check.result.value.IsMember? ==>
            var v := check.result.value.view;
            (if usageType == "lyrics" then v.lyricsRemaining else v.musicRemaining) > 0
            <==> record.result.Ok?)
  {
  }

  /** Both views report the same remaining counts for the same live membership. */
  lemma ViewsAgreeOnCounts(st: State, email: string, now: int)
    requires email != "" && email in st.users && LiveMember(st, email, now)
    ensures
      var check := Membership.CheckMembership(st, email, now).result;
      var login := Auth.LoginView(st.members[email], now);
      && check.Ok? && check.value.IsMember?
      && check.value.view.lyricsRemaining == login.lyricsRemaining
      && check.value.view.musicRemaining == login.musicRemaining
  {
  }
}

=== FILE: membership.dfy ===
/** The membership view (vip.py, check_membership): remaining quota per kind and remaining
    days, with days rounded up. */
module Membership {
  import opened Wrappers
  import opened Store
  import Benefits

  /** Whole days left of `seconds`, as `check_membership` counts them: `timedelta.days`, plus one
      if any seconds of a day are left over, and at least one. Sub-second remainders are not
      modelled (time is in whole seconds). */
  function DaysRoundedUp(seconds: int): (d: int)
    requires seconds > 0
    ensures d >= 1
    ensures (d - 1) * Day < seconds <= d * Day
  {
    var days := seconds / Day;
    var rest := seconds % Day;
    var d := Max(1, days);
    if rest > 0 then Max(1, days + 1) else d
  }

  datatype MemberView = MemberView(
    email: string,
    level: int,
    levelName: string,
    expireTime: int,
    remainingDays: int,
    lyricsRemaining: int,
    musicRemaining: int,
    lyricsUsed: int,
    lyricsLimit: int,
    musicUsed: int,
    musicLimit: int)

  datatype Status = NotAMember | IsMember(view: MemberView)

  datatype CheckError = MissingEmail | UserNotFound

  /** Reports the live membership of `email` at `now`, stamping its last_check. */
  function CheckMembership(st: State, email: string, now: int): (out: Outcome<Status, CheckError>)
    ensures email == "" ==> out == Outcome(Err(MissingEmail), st)
    ensures email != "" && email !in st.users ==> out == Outcome(Err(UserNotFound), st)
    ensures email != "" && email in st.users && !LiveMember(st, email, now) ==>
      out == Outcome(Ok(NotAMember), st)
    ensures email != "" && email in st.users && LiveMember(st, email, now) ==>
      out.result.Ok? && out.result.value.IsMember?
    ensures out.result == Ok(NotAMember) || out.result.Err? ==> out.next == st
    ensures out.result.Ok? && out.result.value.IsMember? ==>
      && LiveMember(st, email, now)
      && out.next == st.(members := st.members[email := st.members[email].(lastCheck := Some(now))])
    ensures out.result.Ok? && out.result.value.IsMember? ==>
      var m := st.members[email];
      var v := out.result.value.view;
      && v.email == email && v.level == m.level && v.levelName == Benefits.LevelName(m.level)
      && v.expireTime == m.expireTime
      && v.lyricsRemaining >= 0 && v.musicRemaining >= 0
      && v.lyricsRemaining >= m.lyricsLimit - m.lyricsUsed
      && (v.lyricsRemaining == 0 || v.lyricsRemaining == m.lyricsLimit - m.lyricsUsed)
      && v.musicRemaining >= m.musicLimit - m.musicUsed
      && (v.musicRemaining == 0 || v.musicRemaining == m.musicLimit - m.musicUsed)
      && v.remainingDays >= 1
      && (v.remainingDays - 1) * Day < m.expireTime - now <= v.remainingDays * Day
      && v.lyricsUsed == m.lyricsUsed && v.lyricsLimit == m.lyricsLimit
      && v.musicUsed == m.musicUsed && v.musicLimit == m.musicLimit
  {
    if email == "" then Outcome(Err(MissingEmail), st)
    else if email !in st.users then Outcome(Err(UserNotFound), st)
    else if !LiveMember(st, email, now) then Outcome(Ok(NotAMember), st)
    else
      var m := st.members[email];
      var view := MemberView(email, m.level, Benefits.LevelName(m.level), m.expireTime,
                             DaysRoundedUp(m.expireTime - now),
                             Remaining(m.lyricsLimit, m.lyricsUsed), Remaining(m.musicLimit, m.musicUsed),
                             m.lyricsUsed, m.lyricsLimit, m.musicUsed, m.musicLimit);
      Outcome(Ok(IsMember(view)), st.(members := st.members[email := m.(lastCheck := Some(now))]))
  }

  lemma CheckPreservesValid(st: State, email: string, now: int)
    requires Valid(st)
    ensures Valid(CheckMembership(st, email, now).next)
  {
    var out := CheckMembership(st, email, now);
    if out.next != st {
      assert MemberCountsValid(st.members[email]);
    }
  }
}

=== FILE: store.dfy ===
/** The persistent state the operations act on: the users, vip_keys, members and usage_logs
    tables, as immutable maps and a sequence. Time is counted in whole seconds. */
module Store {
  import opened Wrappers

  const Day: int := 86400

  /** A registered account. An empty hardwareId stands for the NULL column: the code only
      ever tests the column for truthiness, so NULL and the empty string behave alike. */
  datatype User = User(
    id: nat,
    salt: string,
    passwordHash: string,
    verificationKey: string,
    hardwareId: string,
    createdAt: int,
    lastLogin: Option<int>)

  /** `string.ascii_uppercase + string.digits`, the alphabet of card keys and verification keys. */
  predicate InAlphabet(c: char)
  {
    ('A' <= c <= 'Z') || ('0' <= c <= '9')
  }

  /** The `status` column of a card key. Any status text other than the four the code knows is
      kept as Unknown; `StatusWellFormed` rules out an Unknown holding a known text. */
  datatype KeyStatus = Unactivated | Activated | Consumed | Frozen | Unknown(text: string)

  /** The four status texts the code compares against: '未激活', '已激活', '已使用', '已冻结'. */
  predicate KnownStatusText(t: string)
  {
    t == "未激活" || t == "已激活" || t == "已使用" || t == "已冻结"
  }

  predicate StatusWellFormed(s: KeyStatus)
  {
    s.Unknown? ==> !KnownStatusText(s.text)
  }

  /** The text stored in the `status` column for a status. */
  function StatusText(s: KeyStatus): string
  {
    match s
    case Unactivated => "未激活"
    case Activated => "已激活"
    case Consumed => "已使用"
    case Frozen => "已冻结"
    case Unknown(t) => t
  }

  /** Reading the `status` column: each known text is its status, any other text is Unknown. */
  function StatusOf(t: string): (s: KeyStatus)
    ensures StatusWellFormed(s)
    ensures StatusText(s) == t
    ensures s.Unknown? <==> !KnownStatusText(t)
  {
    if t == "未激活" then Unactivated
    else if t == "已激活" then Activated
    else if t == "已使用" then Consumed
    else if t == "已冻结" then Frozen
    else Unknown(t)
  }

  /** Reading back a written status gives the status again, for every well-formed status. */
  lemma StatusRoundTrip(s: KeyStatus)
    requires StatusWellFormed(s)
    ensures StatusOf(StatusText(s)) == s
  {
  }

  datatype CardKey = CardKey(
    level: int,
    days: int,
    lyrics: int,
    music: int,
    status: KeyStatus,
    activatedBy: Option<string>,
    activatedTime: Option<int>,
    expireTime: Option<int>,
    createdAt: int)

  /** A membership row. The model keeps at most one per user. */
  datatype Member = Member(
    id: nat,
    level: int,
    lyricsLimit: int,
    lyricsUsed: int,
    musicLimit: int,
    musicUsed: int,
    expireTime: int,
    activateTime: int,
    lastCheck: Option<int>)

  datatype UsageEntry = UsageEntry(userId: nat, email: string, actionType: string, actionTime: int)

  /** Users and memberships are keyed by email (unique in the users table), card keys by
      their code (unique in the vip_keys table). The two counters play the SERIAL ids. */
  datatype State = State(
    users: map<string, User>,
    keys: map<string, CardKey>,
    members: map<string, Member>,
    usageLog: seq<UsageEntry>,
    nextUserId: nat,
    nextMemberId: nat)

  /** What every operation returns: its response and the state after it. */
  datatype Outcome<+R, +E> = Outcome(result: Result<R, E>, next: State)

  /** The membership lookups all filter `expire_time > now`. */
  predicate LiveMember(st: State, email: string, now: int)
  {
    email in st.members && st.members[email].expireTime > now
  }

  /** `max(0, limit - used)`, the count every view reports as remaining. */
  function Remaining(limit: int, used: int): (r: int)
    ensures r >= 0
    ensures r >= limit - used
    ensures r == 0 || r == limit - used
  {
    if limit - used > 0 then limit - used else 0
  }

  /** Facts about the tables that every operation keeps: memberships belong to registered
      users, ids are positive and below their counter, counters and grants are not negative, every card grants at least one day, and no key's
      status is an Unknown holding one of the four known texts. */
  predicate Valid(st: State)
  {
    && st.nextUserId >= 1 && st.nextMemberId >= 1
    && (forall e :: e in st.members ==> e in st.users)
    && (forall e :: e in st.users ==> 1 <= st.users[e].id < st.nextUserId)
    && (forall e :: e in st.members ==> 1 <= st.members[e].id < st.nextMemberId)
    && (forall e :: e in st.members ==> MemberCountsValid(st.members[e]))
    && (forall c :: c in st.keys ==> KeyGrantsValid(st.keys[c]) && StatusWellFormed(st.keys[c].status))
  }

  predicate MemberCountsValid(m: Member)
  {
    m.lyricsUsed >= 0 && m.musicUsed >= 0 && m.lyricsLimit >= 0 && m.musicLimit >= 0
  }

  predicate KeyGrantsValid(k: CardKey)
  {
    k.days > 0 && k.lyrics >= 0 && k.music >= 0
  }

  /** The state before any request: empty tables, SERIAL counters at 1. */
  function Empty(): (st: State)
    ensures Valid(st)
    ensures st.users == map[] && st.keys == map[] && st.members == map[] && st.usageLog == []
  {
    State(map[], map[], map[], [], 1, 1)
  }
}

=== FILE: usage.dfy ===
/** Usage metering (vip.py, record_usage): one billable lyric or music generation is
    charged against the live membership and written to the usage log. */
module Usage {
  import opened Wrappers
  import opened Store

  datatype UsageError =
    | MissingEmail
    | BadUsageType
    | UserNotFound
    | NotMember
    | QuotaExhausted(limit: int)

  predicate IsUsageType(t: string)
  {
    t == "lyrics" || t == "music"
  }

  function Used(m: Member, t: string): int
  {
    if t == "lyrics" then m.lyricsUsed else m.musicUsed
  }

  function Limit(m: Member, t: string): int
  {
    if t == "lyrics" then m.lyricsLimit else m.musicLimit
  }

  /** The membership with one more use of kind `t` charged. */
  function Charge(m: Member, t: string): (m': Member)
    requires IsUsageType(t)
    ensures Used(m', t) == Used(m, t) + 1
    ensures forall u :: IsUsageType(u) && u != t ==> Used(m', u) == Used(m, u)
    ensures forall u :: IsUsageType(u) ==> Limit(m', u) == Limit(m, u)
    ensures m'.expireTime == m.expireTime && m'.level == m.level && m'.id == m.id
  {
    if t == "lyrics" then m.(lyricsUsed := m.lyricsUsed + 1) else m.(musicUsed := m.musicUsed + 1)
  }

  /** Records one use of kind `usageType` by `email` at `now`; on success the response is the
      count left of that kind. */
  function RecordUsage(st: State, email: string, usageType: string, now: int): (out: Outcome<int, UsageError>)
    ensures email == "" ==> out == Outcome(Err(MissingEmail), st)
    ensures email != "" && !IsUsageType(usageType) ==> out == Outcome(Err(BadUsageType), st)
    ensures email != "" && IsUsageType(usageType) && email !in st.users ==>
      out == Outcome(Err(UserNotFound), st)
    ensures email != "" && IsUsageType(usageType) && email in st.users && !LiveMember(st, email, now) ==>
      out == Outcome(Err(NotMember), st)
    ensures email != "" && IsUsageType(usageType) && email in st.users && LiveMember(st, email, now) &&
            Used(st.members[email], usageType) >= Limit(st.members[email], usageType) ==>
      out == Outcome(Err(QuotaExhausted(Limit(st.members[email], usageType))), st)
    ensures out.result.Err? ==> out.next == st
    ensures out.result.Ok? <==>
      && email != "" && IsUsageType(usageType) && email in st.users && LiveMember(st, email, now)
      && Used(st.members[email], usageType) < Limit(st.members[email], usageType)
    ensures out.result.Ok? ==> email in out.next.members
    ensures out.result.Ok? ==>
      var m := st.members[email];
      var m' := out.next.members[email];
      && out.result.value >= 0
      && out.result.value == Limit(m', usageType) - Used(m', usageType)
      && m' == Charge(m, usageType)
      && out.next.members == st.members[email := m']
      && out.next.usageLog == st.usageLog + [UsageEntry(st.users[email].id, email, usageType, now)]
      && out.next == st.(members := out.next.members, usageLog := out.next.usageLog)
  {
    if email == "" then Outcome(Err(MissingEmail), st)
    else if !IsUsageType(usageType) then Outcome(Err(BadUsageType), st)
    else if email !in st.users then Outcome(Err(UserNotFound), st)
    else if !LiveMember(st, email, now) then Outcome(Err(NotMember), st)
    else
      var m := st.members[email];
      if Used(m, usageType) >= Limit(m, usageType) then
        Outcome(Err(QuotaExhausted(Limit(m, usageType))), st)
      else
        var m' := Charge(m, usageType);
        var entry := UsageEntry(st.users[email].id, email, usageType, now);
        Outcome(Ok(Limit(m', usageType) - Used(m', usageType)),
                st.(members := st.members[email := m'], usageLog := st.usageLog + [entry]))
  }

  /** Both counters within their limits for `email`. */
  predicate WithinLimits(st: State, email: string)
  {
    email in st.members ==>
      st.members[email].lyricsUsed <= st.members[email].lyricsLimit &&
      st.members[email].musicUsed <= st.members[email].musicLimit
  }

  /** Metering never pushes a counter past its limit: if it was within before, it is after. */
  lemma RecordKeepsWithinLimits(st: State, email: string, usageType: string, now: int, who: string)
    requires WithinLimits(st, who)
    ensures WithinLimits(RecordUsage(st, email, usageType, now).next, who)
  {
  }

  /** `n` successive calls of the same kind at the same time, stopping at the first refusal;
      the result is the number that succeeded and the state reached. */
  function RecordRepeatedly(st: State, email: string, usageType: string, now: int, n: nat): (r: (nat, State))
    ensures r.0 <= n
    decreases n
  {
    if n == 0 then (0, st)
    else
      var out := RecordUsage(st, email, usageType, now);
      if out.result.Err? then (0, st)
      else
        var rest := RecordRepeatedly(out.next, email, usageType, now, n - 1);
        (rest.0 + 1, rest.1)
  }

  /** A live membership with `used` of `limit` spent accepts exactly `limit - used` more uses of
      that kind: all of them succeed, the counter then equals the limit, and the next is refused. */
  lemma {:induction false} QuotaAllowsExactly(st: State, email: string, usageType: string, now: int)
    requires email != "" && IsUsageType(usageType) && email in st.users && LiveMember(st, email, now)
    requires Used(st.members[email], usageType) <= Limit(st.members[email], usageType)
    ensures
      var n := Limit(st.members[email], usageType) - Used(st.members[email], usageType);
      var r := RecordRepeatedly(st, email, usageType, now, n);
      && r.0 == n
      && email in r.1.members
      && Used(r.1.members[email], usageType) == Limit(st.members[email], usageType)
      && |r.1.usageLog| == |st.usageLog| + n
      && RecordUsage(r.1, email, usageType, now).result == Err(QuotaExhausted(Limit(st.members[email], usageType)))
    decreases Limit(st.members[email], usageType) - Used(st.members[email], usageType)
  {
    var m := st.members[email];
    var n := Limit(m, usageType) - Used(m, usageType);
    if n > 0 {
      var out := RecordUsage(st, email, usageType, now);
      assert out.result.Ok?;
      var m' := out.next.members[email];
      assert Used(m', usageType) == Used(m, usageType) + 1 && Limit(m', usageType) == Limit(m, usageType);
      assert LiveMember(out.next, email, now) && email in out.next.users;
      QuotaAllowsExactly(out.next, email, usageType, now);
    }
  }

  lemma RecordPreservesValid(st: State, email: string, usageType: string, now: int)
    requires Valid(st)
    ensures Valid(RecordUsage(st, email, usageType, now).next)
  {
    var out := RecordUsage(st, email, usageType, now);
    if out.result.Ok? {
      assert MemberCountsValid(st.members[email]);
    }
  }
}

=== FILE: wrappers.dfy ===
/** Failure-carrying return values shared by every operation of the model. */
module Wrappers {

  datatype Option<+T> = None | Some(value: T)

  /** The outcome of one operation: a payload on success, a typed error otherwise. */
  datatype Result<+T, +E> = Ok(value: T) | Err(error: E)

  function Max(a: int, b: int): (m: int)
    ensures m >= a && m >= b
    ensures m == a || m == b
  {
    if a >= b then a else b
  }
}
